=== FILE: README.md ===
# Worktree coordination hooks, modelled in Dafny

This project models two hooks of the multi-worktree setup. Each hook is a Node
script that the assistant's hook runner starts at a fixed point of a session.

- **`post-tool-use.js`** runs after every tool call.
  - When the tool edited a file (`Write`, `Edit` or `MultiEdit`), it scans a
    fixed, priority-ordered catalogue of three marker files under
    `../{projectName}-worktrees`.
  - For each marker that exists, it logs `signal_detected`, prints a
    `PostToolUse` envelope and runs the workflow routine the marker triggers
    (test, docs or validation).
  - Each routine pulls a branch, may run `npm test`, and writes its own output
    marker. It catches its own failures and logs them as `workflow_failed`.
  - The dispatcher then deletes the marker, logs `signal_processed` and stops.
    If the delete throws, it logs `signal_error` and goes on to the next entry.
- **`user-prompt-submit.js`** runs when a prompt is submitted. It loads the
  worktree configuration (defaults, shallowly overridden by
  `.claude/worktree-config.json`). When the lower-cased prompt contains one of
  twelve keywords, it prints one `UserPromptSubmit` envelope whose context names
  the project and its worktrees.

The model is functional: the hooks become pure functions over immutable data.

- The filesystem is a map from paths (sequences of segments) to directories and
  files.
- The workflow log is a sequence of event records.
- Everything the scripts cannot see into is an oracle `World`:
  - how each spawned command ends;
  - whether the operating system lets a write or an unlink through.
- Standard input, the environment variable and the working directory are
  parameters.

Modules, in dependency order:

- `Options`: the `Option` type.
- `JsValues`: parsed JSON values, `String(v)` and `Array.prototype.join`,
  including the `TypeError` an object with its own `toString` key raises.
- `WorktreeConfig`: the default configuration and the object-spread merge.
- `PromptKeywords`: ASCII lower-casing, `includes`, and the keyword test.
- `HookProtocol`: the printed envelope and the project-directory fallback.
- `PromptHook`: the whole prompt hook.
- `Effects`: filesystem, commands and the `World` oracle.
- `Signals`: the marker catalogue and the first-present scan.
- `Workflows`: the three routines, as one parameterised `Routine`, and the
  command-sequencing rule of `runCommand`.
- `Dispatcher`: the dispatch cycle run to completion, and the tool-name gate.
- `ExitRace`: the post-tool-use hook as its last line makes it behave (see
  Findings).

One detail of the scan is worth stating, because it goes against the comment
that explains the scan's `break`:

- The `break` at `post-tool-use.js` line 118 carries the comment "Process one
  signal at a time", and ends the scan after a signal has been handled.
- That `break` sits inside the `try`, after the unlink. The `catch` at lines
  119-122 logs `signal_error` and has no `break`, so when the unlink throws the
  loop goes on to the next catalogue entry. That entry may be a marker the
  first routine has just written.
- The model follows the code. `Dispatcher.StuckMarkerLetsTwoWorkflowsRun` shows
  two routines running in one invocation.

## Model

| member | source | states |
|---|---|---|
| JsValues.DecimalRoundTrip | examples/multi-worktree-setup/templates/hooks/user-prompt-submit.js:22 | the numeral an array index becomes as a spread key reads back as that index |
| JsValues.DecimalInjective | examples/multi-worktree-setup/templates/hooks/user-prompt-submit.js:22 | distinct indices give distinct keys, so spreading an array or string keeps every element |
| JsValues.ToText | examples/multi-worktree-setup/templates/hooks/user-prompt-submit.js:44 | the conversion throws exactly when the value is an object with its own `toString` key or an array holding one at any depth; otherwise a string is shown as itself, a number as its decimal digits (after a `-` when negative) reading back as the number, and an empty array as the empty text |
| JsValues.ArrayJoin | examples/multi-worktree-setup/templates/hooks/user-prompt-submit.js:45 | `join` on an array throws exactly when one of its elements cannot be converted to text |
| JsValues.JoinPlacesPart | examples/multi-worktree-setup/templates/hooks/user-prompt-submit.js:45 | `join` puts every part, unchanged and in the given order, at its offset; the last part ends the text |
| JsValues.JoinSeparates | examples/multi-worktree-setup/templates/hooks/user-prompt-submit.js:45 | exactly one separator stands between each part and the next |
| WorktreeConfig.Indexed | examples/multi-worktree-setup/templates/hooks/user-prompt-submit.js:22 | spreading an array or a string yields element `i` under the key `String(i)` |
| WorktreeConfig.IndexedKeys | examples/multi-worktree-setup/templates/hooks/user-prompt-submit.js:22 | the spread of an array or a string has no keys other than the index numerals |
| WorktreeConfig.Load | examples/multi-worktree-setup/templates/hooks/user-prompt-submit.js:12-26 | the merged keys are the defaults' plus the file's own; every key from the file wins, with no type check; a default the file lacks keeps its value; a missing or unreadable file leaves exactly the defaults |
| WorktreeConfig.NonObjectKeepsDefaults | examples/multi-worktree-setup/templates/hooks/user-prompt-submit.js:22 | a file that parses to a non-object (string, array, number, boolean, null) never changes a default value |
| PromptKeywords.IncludesMeansOccurs | examples/multi-worktree-setup/templates/hooks/user-prompt-submit.js:36 | the front-to-back search answers true exactly when the keyword occurs somewhere in the text |
| PromptKeywords.SomeIncluded | examples/multi-worktree-setup/templates/hooks/user-prompt-submit.js:35-37 | `some` is true exactly when at least one listed key is included |
| PromptKeywords.MatchesIffKeywordOccurs | examples/multi-worktree-setup/templates/hooks/user-prompt-submit.js:29-37 | a prompt matches exactly when one of the twelve keywords occurs in its lower-cased text |
| PromptKeywords.CaseDoesNotMatter | examples/multi-worktree-setup/templates/hooks/user-prompt-submit.js:35-37 | two prompts that differ only in ASCII letter case get the same decision |
| PromptKeywords.UpperCaseSameDecision | examples/multi-worktree-setup/templates/hooks/user-prompt-submit.js:35-37 | upper-casing a prompt never changes the decision |
| PromptKeywords.MatchIsMonotone | examples/multi-worktree-setup/templates/hooks/user-prompt-submit.js:35-37 | any text that contains a matching prompt matches too |
| PromptKeywords.TrailingKeywordsRedundant | examples/multi-worktree-setup/templates/hooks/user-prompt-submit.js:29-33 | the first ten keywords alone give the same decision, because "tests-complete" and "bugfix-complete" contain "test" and "bugfix" |
| PromptHook.Submit | examples/multi-worktree-setup/templates/hooks/user-prompt-submit.js:39-77 | with no keyword, nothing is printed and the exit status is 0; one envelope, named `UserPromptSubmit`, is printed exactly when a keyword matches and the template fills in (`projectName` converts to text and `worktrees` is an array whose elements all convert); otherwise the template throws and the process exits with status 1 having printed nothing |
| PromptHook.ContextNamesProjectAndWorktrees | examples/multi-worktree-setup/templates/hooks/user-prompt-submit.js:41-45 | the context contains the `Project:` line followed by the `Active worktrees:` line |
| PromptHook.Render | examples/multi-worktree-setup/templates/hooks/user-prompt-submit.js:41-70 | the template fills in exactly when `projectName` converts to text and `worktrees` is an array whose elements all convert |
| PromptHook.EmittedContextDescribesConfig | examples/multi-worktree-setup/templates/hooks/user-prompt-submit.js:41-45 | when the template fills in, the emitted context names the text of `config.projectName` and lists the texts of `config.worktrees` joined by ", " |
| PromptHook.DefaultWorktreesText | examples/multi-worktree-setup/templates/hooks/user-prompt-submit.js:12-45 | the default worktrees are listed as "feature, test, docs, bugfix" |
| PromptHook.DefaultContext | examples/multi-worktree-setup/templates/hooks/user-prompt-submit.js:12-45 | with no usable config file, a matching prompt is told about project "unknown" and the four default worktrees |
| PromptHook.ContextShowsDirectories | examples/multi-worktree-setup/templates/hooks/user-prompt-submit.js:63-64 | the context contains the `Current working directory:` line followed by the `Project root:` line |
| PromptHook.ContextShowsProjectRoot | examples/multi-worktree-setup/templates/hooks/user-prompt-submit.js:8-64 | an emitted context shows the working directory, and as project root `CLAUDE_PROJECT_DIR` when it is set and non-empty, the working directory otherwise |
| Signals.MarkersDistinct | examples/multi-worktree-setup/templates/hooks/post-tool-use.js:80-99 | the three catalogue markers are three different paths |
| Signals.FirstPresentFrom | examples/multi-worktree-setup/templates/hooks/post-tool-use.js:98-101 | the scan finds the earliest catalogue entry whose marker exists, every earlier marker being absent, and finds none exactly when no marker exists |
| Workflows.RunInOrder | examples/multi-worktree-setup/templates/hooks/post-tool-use.js:45-55 | commands run in order; a command fails unless it closes with code 0; the first failure stops the sequence and is the last command started; there is no failure exactly when every command succeeds |
| Workflows.RoutineFor | examples/multi-worktree-setup/templates/hooks/post-tool-use.js:128-140 | the docs action is the only one whose routine runs no tests and works in the `docs` worktree; validation alone pulls a `bugfix` branch |
| Workflows.RoutineForInjective | examples/multi-worktree-setup/templates/hooks/post-tool-use.js:128-140 | two different actions never select the same workflow |
| Workflows.RunRoutine | examples/multi-worktree-setup/templates/hooks/post-tool-use.js:143-213 | `workflow_started` comes first; a missing worktree means no command, no write and no further record; otherwise the routine completes exactly when every planned command succeeds and the write is allowed, writes its output only then, and logs `workflow_failed` otherwise |
| Workflows.TestRoutineCommands | examples/multi-worktree-setup/templates/hooks/post-tool-use.js:143-166 | the test routine runs `git pull origin feature/{project}` first and `npm test` only after a successful pull when `package.json` exists; a failure writes no `.tests-complete` |
| Workflows.DocsRoutineWritesOnlyItsNote | examples/multi-worktree-setup/templates/hooks/post-tool-use.js:169-187 | the docs routine only pulls `feature/{project}` into the docs worktree and writes nothing but `.docs-needed` with its fixed text |
| Workflows.ValidationRoutineWritesOnlyItsMarker | examples/multi-worktree-setup/templates/hooks/post-tool-use.js:190-213 | the validation routine pulls `bugfix/{project}` into the test worktree and writes nothing but `.validation-complete`, which is not a catalogue marker |
| Dispatcher.Notice | examples/multi-worktree-setup/templates/hooks/post-tool-use.js:104-109 | the envelope is named `PostToolUse` and its context is the badge followed by the entry's message |
| Dispatcher.NoticesIdentifyEntry | examples/multi-worktree-setup/templates/hooks/post-tool-use.js:80-109 | different catalogue entries print different envelopes |
| Dispatcher.CatalogueSelectsRoutines | examples/multi-worktree-setup/templates/hooks/post-tool-use.js:128-213 | the feature marker starts the test workflow pulling `feature/{project}` into `test`; the tests marker starts the docs workflow pulling `feature/{project}` into `docs`; the bugfix marker starts the validation workflow pulling `bugfix/{project}` into `test` |
| Dispatcher.Dispatch | examples/multi-worktree-setup/templates/hooks/post-tool-use.js:77-125 | with no marker present the cycle does nothing; otherwise it opens with the first present entry's `signal_detected` and envelope, prints at most one envelope per entry, and logs `signal_processed` only last |
| Dispatcher.ScanFrom | examples/multi-worktree-setup/templates/hooks/post-tool-use.js:98-124 | a scan prints at most one `PostToolUse` envelope per remaining catalogue entry and logs `signal_processed` only as its last record |
| Dispatcher.PostToolUse | examples/multi-worktree-setup/templates/hooks/post-tool-use.js:77-220 | any tool other than `Write`, `Edit` or `MultiEdit` changes nothing and prints nothing; a project name that cannot be converted to text makes the cycle throw before any marker is looked at, so nothing changes; the log only grows; with no marker present nothing changes |
| Dispatcher.SkipAbsent | examples/multi-worktree-setup/templates/hooks/post-tool-use.js:98-101 | entries whose marker is absent are passed over without effect |
| Dispatcher.NoSignalNoChange | examples/multi-worktree-setup/templates/hooks/post-tool-use.js:98-124 | with no marker present, a cycle changes no file, logs nothing and prints nothing |
| Dispatcher.ConsumesFirstSignal | examples/multi-worktree-setup/templates/hooks/post-tool-use.js:98-118 | the first marker present is the one processed; when its unlink succeeds the cycle logs `signal_detected`, the routine's records and `signal_processed`, prints one envelope, deletes that marker and keeps every other existing path |
| Dispatcher.DeletesMarkerEvenWhenWorkflowFails | examples/multi-worktree-setup/templates/hooks/post-tool-use.js:112-116 | when the unlink succeeds, a failed routine's marker is still deleted, and `signal_processed` follows its `workflow_failed` record |
| Dispatcher.ScanKeepsEarlierMarkers | examples/multi-worktree-setup/templates/hooks/post-tool-use.js:98-124 | the scan never deletes the marker of an entry it has already passed |
| Dispatcher.ScanProcessesOnlyLater | examples/multi-worktree-setup/templates/hooks/post-tool-use.js:98-124 | the scan logs `signal_processed` only for entries it has not yet passed |
| Dispatcher.UnlinkFailureContinuesScan | examples/multi-worktree-setup/templates/hooks/post-tool-use.js:102-123 | when the unlink throws, `signal_error` takes the place of `signal_processed`, the marker stays, and the scan goes on to the next entry |
| Dispatcher.TestSuccessArmsDocs | examples/multi-worktree-setup/templates/hooks/post-tool-use.js:98-161 | when the unlink succeeds, a completed test run logs `signal_detected`, `workflow_started`, `workflow_completed`, `signal_processed` in that order, and leaves `test/.tests-complete` as the next cycle's first signal, which triggers the docs workflow |
| Dispatcher.StuckMarkerLetsTwoWorkflowsRun | examples/multi-worktree-setup/templates/hooks/post-tool-use.js:98-124 | when the test routine completes and the feature marker then cannot be unlinked, the test and docs workflows both run in one invocation |
| ExitRace.ScanUntilSuspended | examples/multi-worktree-setup/templates/hooks/post-tool-use.js:216-223 | before the first `await` nothing is written or deleted; records appear only when a marker exists, and none is `signal_processed` |
| ExitRace.PostToolUseAsWritten | examples/multi-worktree-setup/templates/hooks/post-tool-use.js:216-223 | the hook as written never changes the filesystem, whatever the tool; a project name that cannot be converted to text leaves everything as it was |
| ExitRace.ExitRaceStrandsMarker | examples/multi-worktree-setup/templates/hooks/post-tool-use.js:216-223 | as written, a present marker survives with no `signal_processed`, and the next invocation prints the same envelope and starts the same commands; run to completion, the marker is deleted |
| ExitRace.AsWrittenIsCutShort | examples/multi-worktree-setup/templates/hooks/post-tool-use.js:216-223 | what the hook does as written is a prefix of the completed cycle: its records, envelopes and commands |

## Left out

- `session-start.js` is not part of this model. It prints a text template. Its
  config merge spreads the file over the defaults as modelled here, but its
  default `projectName` comes from `CLAUDE_PROJECT_NAME` (falling back to
  `unknown`), and it reports a read or parse error on standard error where the
  prompt hook silently keeps the defaults.
- Reading standard input and `JSON.parse` of the hook input are left out. The
  tool name and the prompt are parameters. A prompt that is not a string (so
  that `toLowerCase` throws) is not modelled.
- The config file's path and the text of its parse errors are left out. The
  file is given as already read: absent, unreadable or unparsable, or parsed
  to a JSON value.
- JSON numbers are integers in the model. Fractions and exponent forms, and
  how `String` prints them, are left out.
- JsValues.ToText: prints every integer as its exact decimal digits, which
  JavaScript does only up to 2^53 in magnitude. JavaScript numbers are
  doubles, so `JSON.parse` rounds a larger integer such as
  `9007199254740993` to a neighbouring double; `String` prints a large double
  by its shortest round-trip digits padded with zeros
  (`String(2 ** 60)` is `"1152921504606847000"`); and from 10^21 on it uses
  exponent form (`"1e+21"`). A project name that large would give a different
  worktrees path and branch names than the model's.
- Lower-casing is ASCII only. Non-ASCII case mappings of `toLowerCase`, such as
  the Kelvin sign becoming `k`, are left out.
- Paths are segment sequences without `path.join` normalisation. `existsSync`
  is membership in the filesystem map.
- Log records have no timestamp, no project name and no JSON line format. A
  failed log append is swallowed by the hook (`post-tool-use.js` lines
  69-73), so the model always appends.
- `console.error` output and the standard-output/standard-error text that
  `runCommand` buffers are left out. A failure keeps only the command and how
  it ended.
- A spawned command that never closes is left out. `runCommand`
  (`post-tool-use.js` lines 30-56) sets no timeout, so such a command would
  hang the hook; every `Termination` here is an exit, a kill or a spawn
  failure.
- The `World` oracle maps each command to one way of ending. A command run
  twice in one invocation is therefore taken to end the same way both times.
  That happens to `npm test` in the `test` worktree: the test routine runs
  it, and when the feature and tests-complete markers both cannot be
  unlinked, the scan reaches the bugfix-complete marker and the validation
  routine runs it again when its pull succeeds and `package.json` exists.
- Strings are sequences of Unicode code points, while JavaScript strings are
  sequences of UTF-16 code units. A character outside the Basic Multilingual
  Plane is one spread key and one unit of length here, but two in JavaScript;
  this touches the spread of a string config file and the length of the
  envelope's badge.
- The effects of the spawned commands on the filesystem are left out: a
  `git pull` or `npm test` changes no path in the model. Commands are judged
  only by the oracle.
- Concurrent invocations and the non-atomic check-then-delete between them are
  left out. Each invocation is one function application.
- Dispatcher.PostToolUse: the exit status is not in the result. The hook always
  exits with status 0.
- Dispatcher.PostToolUse: the model runs the cycle to completion. The hook as
  written is modelled separately in `ExitRace` and logged under Findings.

## Findings

| source | as written | input that shows it | evidently intended | confidence | as-written member | corrected member |
|---|---|---|---|---|---|---|
| examples/multi-worktree-setup/templates/hooks/post-tool-use.js:216-223 | `checkAndProcessSignals()` is started without `await`, and `process.exit(0)` runs straight after it. The process ends at the cycle's first suspension: the routine's first `runCommand`, or the `await` on an already settled routine. | tool `Write` with `../{project}-worktrees/feature/.claude-complete` present and the test worktree present: `signal_detected` and `workflow_started` are logged and `git pull` is spawned, then the process exits. The marker is never deleted, no `signal_processed` is logged, and the next `Write` repeats the same steps. | the cycle runs to completion before the hook exits: the routine finishes, the marker is deleted and `signal_processed` is logged | not executed; follows from Node's run-to-first-`await` semantics | ExitRace.PostToolUseAsWritten, ExitRace.ExitRaceStrandsMarker | Dispatcher.PostToolUse, Dispatcher.ConsumesFirstSignal |

=== FILE: dispatcher.dfy ===
/** The post-tool-use hook's dispatch cycle: after a file-editing tool runs,
    scan the catalogue, run the routine of the first marker that exists, delete
    the marker, and log each step. */
module Dispatcher {

  import opened Options
  import opened Effects
  import opened Signals
  import opened Workflows
  import opened HookProtocol
  import opened WorktreeConfig

  /** What persists between invocations: the files and the append-only log. */
  datatype State = State(fs: FileSystem, log: seq<Event>)

  /** What a scan does: the filesystem it leaves, the records it appends to the
      log, the envelopes it prints and the commands it starts, each in order. */
  datatype Cycle = Cycle(fs: FileSystem, events: seq<Event>, printed: seq<Envelope>, commands: seq<Command>)

  /** The envelope printed when a marker is detected: a `PostToolUse` envelope
      whose text, after the two-character badge, is the entry's message. */
  function Notice(i: nat): (e: Envelope)
    requires i < |Catalogue|
    ensures e.hookEventName == "PostToolUse"
    ensures |e.additionalContext| == 2 + |Catalogue[i].message|
    ensures e.additionalContext[2..] == Catalogue[i].message
  {
    Envelope("PostToolUse", "\U{1F504} " + Catalogue[i].message)
  }

  /** The routine run for catalogue entry `i`. */
  function Handle(fs: FileSystem, world: World, project: string, i: nat): RoutineRun
    requires i < |Catalogue|
  {
    RunRoutine(RoutineFor(Catalogue[i].action), fs, world, project)
  }

  /** What entry `i` logs up to and including its routine. */
  function Opening(fs: FileSystem, world: World, project: string, i: nat): seq<Event>
    requires i < |Catalogue|
  {
    [SignalDetected(Catalogue[i].file, Catalogue[i].action)] + Handle(fs, world, project, i).events
  }

  /** The record logged when unlinking entry `i`'s marker throws. */
  function UnlinkError(project: string, i: nat): Event
    requires i < |Catalogue|
  {
    SignalError(Catalogue[i].file, UnlinkFailed(Marker(project, i)))
  }

  /** The scan from catalogue entry `i` on. An entry whose marker exists is
      logged, announced and handed to its routine; then the marker is
      unlinked, `signal_processed` is logged and the scan stops. If the unlink
      throws, `signal_error` is logged instead and the scan goes on. */
  function ScanFrom(fs: FileSystem, world: World, project: string, i: nat): (c: Cycle)
    requires i <= |Catalogue|
    ensures |c.printed| <= |Catalogue| - i
    ensures forall x :: 0 <= x < |c.events| - 1 ==> !c.events[x].SignalProcessed?
    ensures forall x :: 0 <= x < |c.printed| ==> c.printed[x].hookEventName == "PostToolUse"
    decreases |Catalogue| - i
  {
    if i == |Catalogue| then Cycle(fs, [], [], [])
    else if Marker(project, i) !in fs then ScanFrom(fs, world, project, i + 1)
    else
      var run := Handle(fs, world, project, i);
      var marker := Marker(project, i);
      RoutineLogsNoProcessed(RoutineFor(Catalogue[i].action), fs, world, project);
      if CanUnlink(run.fs, world, marker) then
        Cycle(run.fs - {marker}, Opening(fs, world, project, i) + [SignalProcessed(Catalogue[i].file)],
              [Notice(i)], run.commands)
      else
        var rest := ScanFrom(run.fs, world, project, i + 1);
        Cycle(rest.fs, Opening(fs, world, project, i) + [UnlinkError(project, i)] + rest.events,
              [Notice(i)] + rest.printed, run.commands + rest.commands)
  }

  /** `checkAndProcessSignals`, run to completion. A cycle prints something
      exactly when a marker exists, and its first envelope and first record
      are about the highest-priority marker present. */
  function Dispatch(fs: FileSystem, world: World, project: string): (c: Cycle)
    ensures FirstPresent(fs, project).None? <==> c.printed == []
    ensures FirstPresent(fs, project).None? ==> c == Cycle(fs, [], [], [])
    ensures FirstPresent(fs, project).Some? ==>
              var k := FirstPresent(fs, project).value;
              && 1 <= |c.printed| && c.printed[0] == Notice(k)
              && 1 <= |c.events| && c.events[0] == SignalDetected(Catalogue[k].file, Catalogue[k].action)
    ensures |c.printed| <= |Catalogue|
    ensures forall x :: 0 <= x < |c.events| - 1 ==> !c.events[x].SignalProcessed?
  {
    ScanOpensWithFirstPresent(fs, world, project);
    ScanFrom(fs, world, project, 0)
  }

  /** Different entries announce themselves differently: the envelope tells
      which marker was found. */
  lemma NoticesIdentifyEntry(i: nat, j: nat)
    requires i < |Catalogue| && j < |Catalogue|
    requires Notice(i) == Notice(j)
    ensures i == j
  {
    assert Catalogue[i].message == Notice(i).additionalContext[2..];
    assert Catalogue[j].message == Notice(j).additionalContext[2..];
    var m0, m1, m2 := Catalogue[0].message, Catalogue[1].message, Catalogue[2].message;
    assert m0 == "Feature work completed, triggering test workflow";
    assert m1 == "Testing completed, triggering documentation workflow";
    assert m2 == "Bugfix completed, triggering validation workflow";
    assert m0 != m1 && m0 != m2 && m1 != m2;
  }

  /** `processSignal` through the catalogue: the feature marker runs the test
      workflow, the tests-complete marker the docs workflow and the
      bugfix-complete marker the validation workflow, each pulling its branch
      into its worktree first. */
  lemma CatalogueSelectsRoutines(fs: FileSystem, world: World, project: string)
    ensures Handle(fs, world, project, 0).events[0] == WorkflowStarted(TestWorkflow)
    ensures Handle(fs, world, project, 1).events[0] == WorkflowStarted(DocsWorkflow)
    ensures Handle(fs, world, project, 2).events[0] == WorkflowStarted(ValidationWorkflow)
    ensures WorktreesDir(project) + ["test"] in fs ==>
              Handle(fs, world, project, 0).commands[0]
                == Command("git", ["pull", "origin", "feature/" + project], WorktreesDir(project) + ["test"])
    ensures WorktreesDir(project) + ["docs"] in fs ==>
              Handle(fs, world, project, 1).commands[0]
                == Command("git", ["pull", "origin", "feature/" + project], WorktreesDir(project) + ["docs"])
    ensures WorktreesDir(project) + ["test"] in fs ==>
              Handle(fs, world, project, 2).commands[0]
                == Command("git", ["pull", "origin", "bugfix/" + project], WorktreesDir(project) + ["test"])
  {
    assert "feature" + "/" + project == "feature/" + project;
    assert "bugfix" + "/" + project == "bugfix/" + project;
  }

  /** One invocation of the hook: the state it leaves, what it printed, and the
      commands it started. */
  datatype Invocation = Invocation(after: State, printed: seq<Envelope>, commands: seq<Command>)

  const EditingTools: set<string> := {"Write", "Edit", "MultiEdit"}

  /** The whole hook: only a file-editing tool starts a dispatch cycle, whose
      records are appended to the log. When `config.projectName` cannot be
      converted to text, building the worktrees path throws before any marker
      is looked at; the rejected cycle is only reported on standard error. */
  function PostToolUse(toolName: string, file: ConfigFile, st: State, world: World): (inv: Invocation)
    ensures toolName !in EditingTools ==> inv == Invocation(st, [], [])
    ensures ConfiguredProject(file).None? ==> inv == Invocation(st, [], [])
    ensures st.log <= inv.after.log
    ensures |inv.printed| <= |Catalogue|
    ensures forall x :: 0 <= x < |inv.printed| ==> inv.printed[x].hookEventName == "PostToolUse"
    ensures ConfiguredProject(file).Some? && FirstPresent(st.fs, ConfiguredProject(file).value).None? ==>
              inv.after == st && inv.printed == []
  {
    if toolName in EditingTools then
      match ConfiguredProject(file)
      case Some(project) =>
        var c := Dispatch(st.fs, world, project);
        Invocation(State(c.fs, st.log + c.events), c.printed, c.commands)
      case None => Invocation(st, [], [])
    else Invocation(st, [], [])
  }

  /** A routine's own records never include `signal_processed`. */
  lemma RoutineLogsNoProcessed(r: Routine, fs: FileSystem, world: World, project: string)
    ensures forall e :: e in RunRoutine(r, fs, world, project).events ==> !e.SignalProcessed?
  {
  }

  /** Markers absent at the scan's start are passed over. */
  lemma {:induction false} SkipAbsent(fs: FileSystem, world: World, project: string, i: nat)
    requires i <= |Catalogue|
    ensures FirstPresentFrom(fs, project, i).None? ==> ScanFrom(fs, world, project, i) == Cycle(fs, [], [], [])
    ensures FirstPresentFrom(fs, project, i).Some? ==>
              ScanFrom(fs, world, project, i) == ScanFrom(fs, world, project, FirstPresentFrom(fs, project, i).value)
    decreases |Catalogue| - i
  {
    if i < |Catalogue| && Marker(project, i) !in fs {
      SkipAbsent(fs, world, project, i + 1);
    }
  }

  /** When entry `i`'s marker exists, the scan from `i` opens with it whichever
      way its unlink goes: its records, its envelope and its routine's commands
      come first. */
  lemma ScanOpensWithPresent(fs: FileSystem, world: World, project: string, i: nat)
    requires i < |Catalogue| && Marker(project, i) in fs
    ensures var c := ScanFrom(fs, world, project, i);
            && Opening(fs, world, project, i) <= c.events
            && 1 <= |c.printed| && c.printed[0] == Notice(i)
            && Handle(fs, world, project, i).commands <= c.commands
  {
  }

  /** The scan from the top of the catalogue is empty when no marker exists,
      and otherwise opens with the first marker present. */
  lemma ScanOpensWithFirstPresent(fs: FileSystem, world: World, project: string)
    ensures FirstPresent(fs, project).None? ==> ScanFrom(fs, world, project, 0) == Cycle(fs, [], [], [])
    ensures FirstPresent(fs, project).Some? ==>
              var k := FirstPresent(fs, project).value;
              var c := ScanFrom(fs, world, project, 0);
              && Opening(fs, world, project, k) <= c.events
              && 1 <= |c.printed| && c.printed[0] == Notice(k)
  {
    SkipAbsent(fs, world, project, 0);
    if FirstPresent(fs, project).Some? {
      ScanOpensWithPresent(fs, world, project, FirstPresent(fs, project).value);
    }
  }

  /** With no marker present, a cycle changes nothing, logs nothing and prints nothing. */
  lemma NoSignalNoChange(fs: FileSystem, world: World, project: string)
    requires FirstPresent(fs, project).None?
    ensures Dispatch(fs, world, project) == Cycle(fs, [], [], [])
  {
    SkipAbsent(fs, world, project, 0);
  }

  /** Priority and consumption: the first marker present, `k`, is the one
      processed. When its unlink succeeds the cycle ends there, whether the
      routine completed or failed: the marker is gone, the log gains
      `signal_detected`, the routine's records and `signal_processed`, one
      envelope is printed, and every other existing path is still there. */
  lemma ConsumesFirstSignal(fs: FileSystem, world: World, project: string)
    requires FirstPresent(fs, project).Some?
    requires var k := FirstPresent(fs, project).value;
             CanUnlink(Handle(fs, world, project, k).fs, world, Marker(project, k))
    ensures var k := FirstPresent(fs, project).value;
            var run := Handle(fs, world, project, k);
            var c := Dispatch(fs, world, project);
            && c.fs == run.fs - {Marker(project, k)}
            && c.events == [SignalDetected(Catalogue[k].file, Catalogue[k].action)]
                           + run.events + [SignalProcessed(Catalogue[k].file)]
            && c.printed == [Notice(k)]
            && c.commands == run.commands
            && Marker(project, k) !in c.fs
            && (forall p :: p in fs && p != Marker(project, k) ==> p in c.fs)
  {
    SkipAbsent(fs, world, project, 0);
  }

  /** A routine that fails still loses its marker: the dispatcher deletes it and
      logs `signal_processed` right after the `workflow_failed` record. */
  lemma DeletesMarkerEvenWhenWorkflowFails(fs: FileSystem, world: World, project: string)
    requires FirstPresent(fs, project).Some?
    requires var k := FirstPresent(fs, project).value;
             && !Handle(fs, world, project, k).Completed()
             && CanUnlink(fs, world, Marker(project, k))
    ensures var k := FirstPresent(fs, project).value;
            var c := Dispatch(fs, world, project);
            && Marker(project, k) !in c.fs
            && c.events[|c.events| - 1] == SignalProcessed(Catalogue[k].file)
            && (WorktreePath(project, RoutineFor(Catalogue[k].action)) in fs ==>
                  c.events[|c.events| - 2].WorkflowFailed?)
  {
    ConsumesFirstSignal(fs, world, project);
  }

  /** A scan from entry `i` on never removes an earlier entry's marker. */
  lemma {:induction false} ScanKeepsEarlierMarkers(fs: FileSystem, world: World, project: string, i: nat, j: nat)
    requires j < i <= |Catalogue|
    requires Marker(project, j) in fs
    ensures Marker(project, j) in ScanFrom(fs, world, project, i).fs
    decreases |Catalogue| - i
  {
    if i < |Catalogue| {
      if Marker(project, i) !in fs {
        ScanKeepsEarlierMarkers(fs, world, project, i + 1, j);
      } else {
        MarkersDistinct(project, i, j);
        var run := Handle(fs, world, project, i);
        if !CanUnlink(run.fs, world, Marker(project, i)) {
          ScanKeepsEarlierMarkers(run.fs, world, project, i + 1, j);
        }
      }
    }
  }

  /** A scan from entry `i` on logs `signal_processed` only for entries `i` and later. */
  lemma {:induction false} ScanProcessesOnlyLater(fs: FileSystem, world: World, project: string, i: nat, j: nat)
    requires j < i <= |Catalogue|
    ensures SignalProcessed(Catalogue[j].file) !in ScanFrom(fs, world, project, i).events
    decreases |Catalogue| - i
  {
    if i < |Catalogue| {
      if Marker(project, i) !in fs {
        ScanProcessesOnlyLater(fs, world, project, i + 1, j);
      } else {
        var run := Handle(fs, world, project, i);
        assert Catalogue[i].file != Catalogue[j].file;
        RoutineLogsNoProcessed(RoutineFor(Catalogue[i].action), fs, world, project);
        if !CanUnlink(run.fs, world, Marker(project, i)) {
          ScanProcessesOnlyLater(run.fs, world, project, i + 1, j);
        }
      }
    }
  }

  /** A dispatcher-level failure (the unlink throwing) does not end the cycle:
      `signal_error` is logged in place of `signal_processed`, the marker stays
      for a later invocation, and the scan carries on with the next entry. */
  lemma UnlinkFailureContinuesScan(fs: FileSystem, world: World, project: string)
    requires FirstPresent(fs, project).Some?
    requires var k := FirstPresent(fs, project).value;
             !CanUnlink(Handle(fs, world, project, k).fs, world, Marker(project, k))
    ensures var k := FirstPresent(fs, project).value;
            var run := Handle(fs, world, project, k);
            var rest := ScanFrom(run.fs, world, project, k + 1);
            var c := Dispatch(fs, world, project);
            && c.fs == rest.fs
            && c.events == Opening(fs, world, project, k) + [UnlinkError(project, k)] + rest.events
            && c.printed == [Notice(k)] + rest.printed
            && Marker(project, k) in c.fs
            && SignalProcessed(Catalogue[k].file) !in c.events
  {
    var k := FirstPresent(fs, project).value;
    var run := Handle(fs, world, project, k);
    SkipAbsent(fs, world, project, 0);
    var processed := SignalProcessed(Catalogue[k].file);
    assert Dispatch(fs, world, project) == ScanFrom(fs, world, project, k);
    assert Marker(project, k) in run.fs;
    ScanKeepsEarlierMarkers(run.fs, world, project, k + 1, k);
    ScanProcessesOnlyLater(run.fs, world, project, k + 1, k);
    RoutineLogsNoProcessed(RoutineFor(Catalogue[k].action), fs, world, project);
    assert processed !in Opening(fs, world, project, k) + [UnlinkError(project, k)];
  }

  /** The pipeline advances one stage per cycle: when the feature marker is
      present and the test routine completes, the cycle logs exactly
      `signal_detected`, `workflow_started`, `workflow_completed`,
      `signal_processed`, and leaves the tests-complete marker as the next
      cycle's first signal, which triggers the docs workflow. */
  lemma TestSuccessArmsDocs(fs: FileSystem, world: World, project: string)
    requires Marker(project, 0) in fs
    requires RunRoutine(TestRoutine, fs, world, project).Completed()
    requires CanUnlink(Handle(fs, world, project, 0).fs, world, Marker(project, 0))
    ensures var c := Dispatch(fs, world, project);
            && c.events == [SignalDetected(Catalogue[0].file, TriggerTests),
                            WorkflowStarted(TestWorkflow), WorkflowCompleted(TestWorkflow),
                            SignalProcessed(Catalogue[0].file)]
            && FirstPresent(c.fs, project) == Some(1)
            && Catalogue[1].action == TriggerDocs
  {
    ConsumesFirstSignal(fs, world, project);
    TestOutputIsDocsSignal(project);
    MarkersDistinct(project, 0, 1);
    var run := RunRoutine(TestRoutine, fs, world, project);
    assert run.events == [WorkflowStarted(TestWorkflow), WorkflowCompleted(TestWorkflow)];
  }

  /** Several routines can run in one invocation: when the feature marker cannot
      be unlinked (it is a directory, say) and the test routine completes, the
      scan goes on, finds the tests-complete marker the routine just wrote, and
      runs the docs workflow in the same cycle. */
  lemma StuckMarkerLetsTwoWorkflowsRun(fs: FileSystem, world: World, project: string)
    requires Marker(project, 0) in fs
    requires RunRoutine(TestRoutine, fs, world, project).Completed()
    requires !CanUnlink(Handle(fs, world, project, 0).fs, world, Marker(project, 0))
    ensures var c := Dispatch(fs, world, project);
            && 6 <= |c.events|
            && c.events[1] == WorkflowStarted(TestWorkflow)
            && c.events[5] == WorkflowStarted(DocsWorkflow)
            && |c.printed| >= 2
  {
    var run := Handle(fs, world, project, 0);
    TestOutputIsDocsSignal(project);
    assert Marker(project, 1) in run.fs;
    assert Opening(fs, world, project, 0) == [SignalDetected(Catalogue[0].file, TriggerTests),
                                              WorkflowStarted(TestWorkflow), WorkflowCompleted(TestWorkflow)];
    var rest := ScanFrom(run.fs, world, project, 1);
    var c := Dispatch(fs, world, project);
    assert c.events == Opening(fs, world, project, 0) + [UnlinkError(project, 0)] + rest.events;
    assert c.printed == [Notice(0)] + rest.printed;
    ScanOpensWithPresent(run.fs, world, project, 1);
    assert Opening(run.fs, world, project, 1)[1] == WorkflowStarted(DocsWorkflow);
  }

}

=== FILE: effects.dfy ===
/** The outside world the post-tool-use hook acts on: a filesystem of paths, and
    the results of calls the hook cannot see into (spawned processes, and the
    permission checks the operating system makes on writes and unlinks). */
module Effects {

  /** A path as its segments, relative to the hook's working directory. */
  type Path = seq<string>

  datatype Node = Directory | File(content: string)

  /** What `existsSync` sees: every path that currently names a file or directory. */
  type FileSystem = map<Path, Node>

  /** `spawn(program, args, { cwd })`. */
  datatype Command = Command(program: string, args: seq<string>, cwd: Path)

  /** How a spawned process ended, as `runCommand` observes it: the `close`
      event's exit code, a `null` code (killed by a signal), or an `error`
      event because the process could not be started. */
  datatype Termination = Exited(code: int) | Killed | SpawnFailed

  /** The answers the environment gives: how each command ends, and whether the
      operating system lets a write or an unlink through. */
  datatype World = World(
    run: Command -> Termination,
    writable: Path -> bool,
    removable: Path -> bool
  )

  /** How `runCommand` sees a command end: a working directory that is not a
      directory makes the spawn fail before the program runs. */
  function Run(fs: FileSystem, world: World, cmd: Command): Termination {
    if cmd.cwd in fs && fs[cmd.cwd] == Directory then world.run(cmd) else SpawnFailed
  }

  /** `runCommand` resolves exactly when the process closes with code 0, and rejects otherwise. */
  predicate Succeeds(fs: FileSystem, world: World, cmd: Command) {
    Run(fs, world, cmd) == Exited(0)
  }

  function Parent(p: Path): Path
    requires 1 <= |p|
  {
    p[..|p| - 1]
  }

  /** `writeFileSync(p, ...)` succeeds when the parent is a directory, `p` is not
      one, and the operating system allows it. */
  predicate CanWrite(fs: FileSystem, world: World, p: Path) {
    && 1 <= |p|
    && Parent(p) in fs && fs[Parent(p)] == Directory
    && (p in fs ==> fs[p].File?)
    && world.writable(p)
  }

  /** `unlinkSync(p)` succeeds when `p` is a file the operating system lets go;
      unlinking a directory fails. */
  predicate CanUnlink(fs: FileSystem, world: World, p: Path) {
    p in fs && fs[p].File? && world.removable(p)
  }

}

=== FILE: exit_race.dfy ===
/** The post-tool-use hook as its last lines are written: the dispatch cycle is
    started without being awaited, and `process.exit(0)` follows at once. The
    process therefore ends the first time the cycle suspends, which is when the
    routine for the first marker awaits its first command (or, when the
    worktree is missing, awaits the routine's already settled promise). */
module ExitRace {

  import opened Effects
  import opened Signals
  import opened Workflows
  import opened WorktreeConfig
  import opened Dispatcher

  /** What runs before the first suspension: the first marker present is logged
      and announced, its routine logs `workflow_started` and, when the worktree
      exists, spawns the pull, whose outcome nobody observes. */
  function ScanUntilSuspended(fs: FileSystem, project: string): (c: Cycle)
    ensures c.fs == fs
    ensures FirstPresent(fs, project).None? <==> c.events == []
    ensures |c.printed| <= 1 && |c.commands| <= 1
    ensures forall x :: 0 <= x < |c.events| ==> !c.events[x].SignalProcessed?
  {
    match FirstPresent(fs, project)
    case None => Cycle(fs, [], [], [])
    case Some(k) =>
      var r := RoutineFor(Catalogue[k].action);
      Cycle(fs,
            [SignalDetected(Catalogue[k].file, Catalogue[k].action), WorkflowStarted(r.workflow)],
            [Notice(k)],
            if WorktreePath(project, r) in fs then [Pull(project, r)] else [])
  }

  /** The hook as written: the tool-name gate, then the cut-short cycle. A
      project name that cannot be converted to text rejects the cycle before
      it looks at any marker. */
  function PostToolUseAsWritten(toolName: string, file: ConfigFile, st: State): (inv: Invocation)
    ensures inv.after.fs == st.fs
    ensures toolName !in EditingTools ==> inv == Invocation(st, [], [])
    ensures ConfiguredProject(file).None? ==> inv == Invocation(st, [], [])
  {
    if toolName in EditingTools then
      match ConfiguredProject(file)
      case Some(project) =>
        var c := ScanUntilSuspended(st.fs, project);
        Invocation(State(c.fs, st.log + c.events), c.printed, c.commands)
      case None => Invocation(st, [], [])
    else Invocation(st, [], [])
  }

  /** The discrepancy: with a marker present, the hook as written never deletes
      it and never logs `signal_processed`, so the next invocation detects the
      same marker and starts the same routine again; the run-to-completion
      dispatcher deletes it whenever the unlink is allowed. */
  lemma ExitRaceStrandsMarker(toolName: string, file: ConfigFile, st: State, world: World)
    requires toolName in EditingTools
    requires ConfiguredProject(file).Some?
    requires FirstPresent(st.fs, ConfiguredProject(file).value).Some?
    ensures var project := ConfiguredProject(file).value;
            var k := FirstPresent(st.fs, project).value;
            var written := PostToolUseAsWritten(toolName, file, st);
            var again := PostToolUseAsWritten(toolName, file, written.after);
            && Marker(project, k) in written.after.fs
            && SignalProcessed(Catalogue[k].file) !in written.after.log[|st.log|..]
            && written.printed == [Notice(k)]
            && again.printed == written.printed && again.commands == written.commands
            && (CanUnlink(Handle(st.fs, world, project, k).fs, world, Marker(project, k)) ==>
                  var fixed := PostToolUse(toolName, file, st, world);
                  && Marker(project, k) !in fixed.after.fs
                  && fixed.after.log[|fixed.after.log| - 1] == SignalProcessed(Catalogue[k].file))
  {
    var project := ConfiguredProject(file).value;
    var k := FirstPresent(st.fs, project).value;
    var written := PostToolUseAsWritten(toolName, file, st);
    assert written.after.log[|st.log|..] == ScanUntilSuspended(st.fs, project).events;
    if CanUnlink(Handle(st.fs, world, project, k).fs, world, Marker(project, k)) {
      ConsumesFirstSignal(st.fs, world, project);
    }
  }

  /** What the hook as written does is the start of what the completed cycle
      does: its records, envelopes and commands are prefixes of the corrected
      cycle's. */
  lemma AsWrittenIsCutShort(fs: FileSystem, world: World, project: string)
    ensures var c := Dispatch(fs, world, project);
            var w := ScanUntilSuspended(fs, project);
            w.events <= c.events && w.printed <= c.printed && w.commands <= c.commands
  {
    SkipAbsent(fs, world, project, 0);
    var first := FirstPresent(fs, project);
    if first.Some? {
      var k := first.value;
      var r := RoutineFor(Catalogue[k].action);
      var opening := Opening(fs, world, project, k);
      ScanOpensWithPresent(fs, world, project, k);
      assert opening[..2] == ScanUntilSuspended(fs, project).events;
      if WorktreePath(project, r) in fs {
        assert Handle(fs, world, project, k).commands[..1] == Plan(fs, project, r)[..1];
      }
    }
  }

}

=== FILE: hook_protocol.dfy ===
/** What the hook runner hands a hook and what a hook hands back. */
module HookProtocol {

  import opened Options

  /** The single JSON object a hook prints on standard output:
      `{ hookSpecificOutput: { hookEventName, additionalContext } }`. */
  datatype Envelope = Envelope(hookEventName: string, additionalContext: string)

  /** `process.env.CLAUDE_PROJECT_DIR || process.cwd()`: an unset or empty
      variable falls back to the working directory. */
  function ProjectDir(variable: Option<string>, cwd: string): (dir: string)
    ensures variable.Some? && variable.value != "" ==> dir == variable.value
    ensures variable.None? || variable.value == "" ==> dir == cwd
  {
    match variable
    case Some(v) => if v != "" then v else cwd
    case None => cwd
  }

}

=== FILE: js_values.dfy ===
/** The part of JavaScript's value semantics the hooks depend on: values produced
    by `JSON.parse`, the text a template literal substitutes for a value
    (`String(v)`), and `Array.prototype.join`. */
module JsValues {

  import opened Options

  /** A value produced by `JSON.parse`. Numbers are restricted to integers. */
  datatype Json =
    | JNull
    | JBool(b: bool)
    | JNumber(n: int)
    | JString(s: string)
    | JArray(items: seq<Json>)
    | JObject(fields: map<string, Json>)

  predicate IsDigit(c: char) {
    '0' <= c <= '9'
  }

  predicate AllDigits(s: string) {
    forall i :: 0 <= i < |s| ==> IsDigit(s[i])
  }

  function DigitChar(d: nat): (c: char)
    requires d < 10
    ensures IsDigit(c) && c as int - '0' as int == d
  {
    ('0' as int + d) as char
  }

  /** The decimal numeral of `n`, without leading zeros (what `String(n)` gives
      for a non-negative integer). */
  function Decimal(n: nat): (s: string)
    ensures 1 <= |s| && AllDigits(s)
    ensures n >= 10 ==> 2 <= |s|
    decreases n
  {
    if n < 10 then [DigitChar(n)] else Decimal(n / 10) + [DigitChar(n % 10)]
  }

  /** Reads a string of digits back as a number: the reference inverse of `Decimal`. */
  function DecimalValue(s: string): nat
    requires AllDigits(s)
    decreases |s|
  {
    if |s| == 0 then 0
    else DecimalValue(s[..|s| - 1]) * 10 + (s[|s| - 1] as int - '0' as int)
  }

  /** Reading a numeral back gives the number it was made from. */
  lemma {:induction false} DecimalRoundTrip(n: nat)
    ensures DecimalValue(Decimal(n)) == n
    decreases n
  {
    if n >= 10 {
      var s := Decimal(n);
      assert s[..|s| - 1] == Decimal(n / 10);
      DecimalRoundTrip(n / 10);
    }
  }

  /** Distinct numbers have distinct numerals, so array indices never share a key. */
  lemma DecimalInjective(a: nat, b: nat)
    requires a != b
    ensures Decimal(a) != Decimal(b)
  {
    DecimalRoundTrip(a);
    DecimalRoundTrip(b);
  }

  /** Whether `String(v)` returns rather than throws. Converting an object
      calls its `toString` method; an object parsed with its own `toString`
      key has shadowed that method with a value that is not callable, and
      `valueOf` gives back the object itself, so the conversion throws a
      `TypeError`. An array converts by converting its elements. */
  predicate Printable(v: Json)
    decreases v
  {
    match v
    case JObject(fields) => "toString" !in fields
    case JArray(items) => forall i :: 0 <= i < |items| ==> Printable(items[i])
    case _ => true
  }

  /** The text JavaScript substitutes for `v` in a template literal, `String(v)`,
      or `None` when the conversion throws. An array is converted by joining
      its elements with ",". */
  function ToText(v: Json): (r: Option<string>)
    ensures r.Some? <==> Printable(v)
    ensures v.JString? ==> r == Some(v.s)
    ensures v.JNumber? && v.n >= 0 ==> r.Some? && AllDigits(r.value) && DecimalValue(r.value) == v.n
    ensures v.JNumber? && v.n < 0 ==>
              && r.Some? && 2 <= |r.value| && r.value[0] == '-'
              && AllDigits(r.value[1..]) && DecimalValue(r.value[1..]) == -v.n
    ensures v.JArray? && |v.items| == 0 ==> r == Some("")
    decreases v, 0
  {
    match v
    case JNull => Some("null")
    case JBool(b) => Some(if b then "true" else "false")
    case JNumber(n) =>
      if n < 0 then
        DecimalRoundTrip(-n);
        assert ("-" + Decimal(-n))[1..] == Decimal(-n);
        Some("-" + Decimal(-n))
      else
        DecimalRoundTrip(n);
        Some(Decimal(n))
    case JString(s) => Some(s)
    case JArray(items) => ArrayJoin(items, ",")
    case JObject(fields) => if "toString" in fields then None else Some("[object Object]")
  }

  /** How `Array.prototype.join` renders one element: null becomes "". */
  function ElementText(v: Json): (r: Option<string>)
    ensures r.Some? <==> Printable(v)
    ensures v.JNull? ==> r == Some("")
    decreases v, 2
  {
    if v.JNull? then Some("") else ToText(v)
  }

  /** The texts `join` renders for each element of an array, when no element's
      conversion throws. */
  function ElementTexts(items: seq<Json>): (r: Option<seq<string>>)
    ensures r.Some? <==> forall i :: 0 <= i < |items| ==> Printable(items[i])
    ensures r.Some? ==> |r.value| == |items|
    ensures r.Some? ==> forall i :: 0 <= i < |items| ==> ElementText(items[i]) == Some(r.value[i])
    decreases items, 0
  {
    if forall i :: 0 <= i < |items| ==> ElementText(items[i]).Some? then
      Some(seq(|items|, i requires 0 <= i < |items| => ElementText(items[i]).value))
    else None
  }

  /** `items.join(sep)` on an array value, or `None` when an element's
      conversion throws. */
  function ArrayJoin(items: seq<Json>, sep: string): (r: Option<string>)
    ensures r.Some? <==> forall i :: 0 <= i < |items| ==> Printable(items[i])
    decreases items, 1
  {
    match ElementTexts(items)
    case Some(texts) => Some(Join(texts, sep))
    case None => None
  }

  /** `parts.join(sep)`. */
  function Join(parts: seq<string>, sep: string): string
    decreases |parts|
  {
    if |parts| == 0 then ""
    else if |parts| == 1 then parts[0]
    else parts[0] + sep + Join(parts[1..], sep)
  }

  /** Where the `i`th part starts in `Join(parts, sep)`: every earlier part
      followed by one separator. */
  function Offset(parts: seq<string>, sep: string, i: nat): nat
    requires i <= |parts|
    decreases i
  {
    if i == 0 then 0 else |parts[0]| + |sep| + Offset(parts[1..], sep, i - 1)
  }

  /** A slice of the right operand of a concatenation, read through the whole. */
  lemma SliceAfterPrefix(a: string, b: string, x: nat, y: nat)
    requires x <= y <= |b|
    ensures (a + b)[|a| + x..|a| + y] == b[x..y]
  {
  }

  /** A slice of the left operand of a concatenation, read through the whole. */
  lemma SliceBeforeSuffix(a: string, b: string, x: nat, y: nat)
    requires x <= y <= |a|
    ensures (a + b)[x..y] == a[x..y]
  {
  }

  /** `Join` of two or more parts is the first part and a separator, then the rest. */
  lemma JoinUnfold(parts: seq<string>, sep: string)
    requires 2 <= |parts|
    ensures Join(parts, sep) == (parts[0] + sep) + Join(parts[1..], sep)
    ensures Offset(parts, sep, 1) == |parts[0] + sep|
  {
  }

  /** `Join` places the `i`th part at `Offset(parts, sep, i)`, so the parts appear
      in their given order and unchanged. */
  lemma {:induction false} JoinPlacesPart(parts: seq<string>, sep: string, i: nat)
    requires i < |parts|
    ensures Offset(parts, sep, i) + |parts[i]| <= |Join(parts, sep)|
    ensures Join(parts, sep)[Offset(parts, sep, i)..Offset(parts, sep, i) + |parts[i]|] == parts[i]
    ensures i + 1 == |parts| ==> |Join(parts, sep)| == Offset(parts, sep, i) + |parts[i]|
    decreases i
  {
    if |parts| == 1 {
    } else {
      var head := parts[0] + sep;
      var rest := Join(parts[1..], sep);
      JoinUnfold(parts, sep);
      if i == 0 {
        SliceBeforeSuffix(head, rest, 0, |parts[0]|);
      } else {
        JoinPlacesPart(parts[1..], sep, i - 1);
        assert parts[1..][i - 1] == parts[i];
        var o := Offset(parts[1..], sep, i - 1);
        assert Offset(parts, sep, i) == |head| + o;
        SliceAfterPrefix(head, rest, o, o + |parts[i]|);
      }
    }
  }

  /** Each offset is the previous one moved past a part and a separator. */
  lemma {:induction false} OffsetNext(parts: seq<string>, sep: string, i: nat)
    requires i + 1 < |parts|
    ensures Offset(parts, sep, i + 1) == Offset(parts, sep, i) + |parts[i]| + |sep|
    decreases i
  {
    if i > 0 {
      OffsetNext(parts[1..], sep, i - 1);
      assert parts[1..][i - 1] == parts[i];
    }
  }

  /** Between the `i`th part and the next, `Join` puts exactly one separator,
      and the next part starts right after it. */
  lemma {:induction false} JoinSeparates(parts: seq<string>, sep: string, i: nat)
    requires i + 1 < |parts|
    ensures Offset(parts, sep, i + 1) == Offset(parts, sep, i) + |parts[i]| + |sep|
    ensures Offset(parts, sep, i) + |parts[i]| + |sep| <= |Join(parts, sep)|
    ensures Join(parts, sep)[Offset(parts, sep, i) + |parts[i]|..Offset(parts, sep, i) + |parts[i]| + |sep|] == sep
    decreases i
  {
    OffsetNext(parts, sep, i);
    var head := parts[0] + sep;
    var rest := Join(parts[1..], sep);
    JoinUnfold(parts, sep);
    if i == 0 {
      SliceBeforeSuffix(head, rest, |parts[0]|, |head|);
      assert head[|parts[0]|..] == sep;
    } else {
      JoinSeparates(parts[1..], sep, i - 1);
      assert parts[1..][i - 1] == parts[i];
      var o := Offset(parts[1..], sep, i - 1) + |parts[i]|;
      assert Offset(parts, sep, i) + |parts[i]| == |head| + o;
      SliceAfterPrefix(head, rest, o, o + |sep|);
    }
  }

}

=== FILE: options.dfy ===
/** An optional value, used where the hooks either find something or do not. */
module Options {

  datatype Option<+T> = None | Some(value: T)

}

=== FILE: prompt_hook.dfy ===
/** The `UserPromptSubmit` hook: when a prompt mentions worktree work, print one
    envelope whose context names the project and its worktrees; otherwise print
    nothing. */
module PromptHook {

  import opened Options
  import opened JsValues
  import opened WorktreeConfig
  import opened PromptKeywords
  import opened HookProtocol

  /** What one run of the hook leaves behind: the envelopes it printed and the
      status it exited with. */
  datatype HookRun = HookRun(printed: seq<Envelope>, exitCode: int)

  const Preamble: string := "\n\n\U{1F4CB} Multi-Worktree Context:\n"

  /** The two lines of the context that come from the configuration. */
  function ConfigLines(project: string, worktrees: string): string {
    "Project: " + project + "\nActive worktrees: " + worktrees + "\n"
  }

  const SlashCommandHelp: string :=
    "\nAvailable slash commands:\n"
    + "- /worktree-feature - Navigate to feature worktree\n"
    + "- /worktree-test - Navigate to test worktree\n"
    + "- /worktree-docs - Navigate to docs worktree\n"
    + "- /worktree-bugfix - Navigate to bugfix worktree\n"
    + "- /sync-worktrees - Synchronize changes between worktrees\n"
    + "- /monitor-start - Start worktree monitoring\n"
    + "- /monitor-stop - Stop worktree monitoring\n"
    + "- /status-worktrees - Show worktree status\n"
    + "\nSignal files for automated workflows:\n"
    + "- .claude-complete - Feature work completed (triggers tests)\n"
    + "- .tests-complete - Tests completed (triggers documentation)\n"
    + "- .bugfix-complete - Bugfix completed (triggers validation)\n"
    + "- .docs-needed - Documentation updates needed\n"

  const Tips: string :=
    "\n\nTips:\n"
    + "- Use signal files to coordinate automated workflows\n"
    + "- Worktrees are isolated, use sync commands to share changes\n"
    + "- Monitoring can be started for automated coordination\n"
    + "- Each worktree has its own Git branch and working directory"

  /** The lines naming the directories the hook runs in. */
  function DirectoryLines(cwd: string, root: string): string {
    "\nCurrent working directory: " + cwd + "\nProject root: " + root
  }

  /** The context text, given the project name and the already-joined worktree list. */
  function ContextText(project: string, worktrees: string, cwd: string, root: string): string {
    Preamble + ConfigLines(project, worktrees) + (SlashCommandHelp + DirectoryLines(cwd, root) + Tips)
  }

  /** The context names the project on its own line, and lists the worktrees
      on the line after it. */
  lemma ContextNamesProjectAndWorktrees(project: string, worktrees: string, cwd: string, root: string)
    ensures Occurs(ContextText(project, worktrees, cwd, root), ConfigLines(project, worktrees))
  {
    var line := ConfigLines(project, worktrees);
    assert OccursAt(line, line, 0);
    OccursInContext(line, line, Preamble, SlashCommandHelp + DirectoryLines(cwd, root) + Tips);
  }

  /** Whether both substitutions of the template return rather than throw:
      `config.projectName` converts to text, and `config.worktrees` is an array
      (so that it has a `join` method) whose elements all convert. */
  predicate TemplateRenders(file: ConfigFile) {
    LoadHasDefaultKeys(file);
    var config := Load(file);
    && Printable(config["projectName"])
    && config["worktrees"].JArray?
    && Printable(config["worktrees"])
  }

  /** The filled-in template, or `None` when one of its substitutions throws.
      `config.projectName` is substituted first, then `config.worktrees.join(', ')`. */
  function Render(file: ConfigFile, cwd: string, projectVariable: Option<string>): (r: Option<string>)
    ensures r.Some? <==> TemplateRenders(file)
  {
    var config := Load(file);
    LoadHasDefaultKeys(file);
    match (ProjectName(config), config["worktrees"])
    case (Some(project), JArray(items)) =>
      (match ArrayJoin(items, ", ")
       case Some(listed) => Some(ContextText(project, listed, cwd, ProjectDir(projectVariable, cwd)))
       case None => None)
    case _ => None
  }

  /** The whole hook, from the submitted prompt and the state of the config file.
      A throw while filling in the template ends the process with status 1
      before anything is printed. */
  function Submit(prompt: string, file: ConfigFile, cwd: string, projectVariable: Option<string>): (run: HookRun)
    ensures !HasWorktreeKeyword(prompt) ==> run == HookRun([], 0)
    ensures |run.printed| <= 1
    ensures |run.printed| == 1 <==> HasWorktreeKeyword(prompt) && TemplateRenders(file)
    ensures |run.printed| == 1 ==> run.printed[0].hookEventName == "UserPromptSubmit"
    ensures run.exitCode == if |run.printed| == 1 || !HasWorktreeKeyword(prompt) then 0 else 1
  {
    if !HasWorktreeKeyword(prompt) then HookRun([], 0)
    else
      match Render(file, cwd, projectVariable)
      case Some(context) => HookRun([Envelope("UserPromptSubmit", context)], 0)
      case None => HookRun([], 1)
  }

  /** When a keyword matches and the template fills in, the hook prints one
      envelope carrying the text of `config.projectName` and the texts of
      `config.worktrees` joined by ", ", and exits with status 0. */
  lemma EmittedRun(prompt: string, file: ConfigFile, cwd: string, projectVariable: Option<string>)
    requires HasWorktreeKeyword(prompt)
    requires TemplateRenders(file)
    ensures var config := Load(file);
            var text := ContextText(ToText(config["projectName"]).value,
                                    Join(ElementTexts(config["worktrees"].items).value, ", "),
                                    cwd, ProjectDir(projectVariable, cwd));
            Submit(prompt, file, cwd, projectVariable) == HookRun([Envelope("UserPromptSubmit", text)], 0)
  {
    var config := Load(file);
    var items := config["worktrees"].items;
    assert ProjectName(config) == ToText(config["projectName"]);
    assert ArrayJoin(items, ", ") == Some(Join(ElementTexts(items).value, ", "));
  }

  /** An emitted context names `config.projectName` and, on the next line,
      `config.worktrees` joined by ", " (in configured order, by `JoinPlacesPart`). */
  lemma EmittedContextDescribesConfig(
    prompt: string, file: ConfigFile, cwd: string, projectVariable: Option<string>)
    requires HasWorktreeKeyword(prompt)
    requires TemplateRenders(file)
    ensures var config := Load(file);
            var run := Submit(prompt, file, cwd, projectVariable);
            && |run.printed| == 1
            && Occurs(run.printed[0].additionalContext,
                      ConfigLines(ToText(config["projectName"]).value,
                                  Join(ElementTexts(config["worktrees"].items).value, ", ")))
  {
    var config := Load(file);
    var project := ToText(config["projectName"]).value;
    var listed := Join(ElementTexts(config["worktrees"].items).value, ", ");
    var text := ContextText(project, listed, cwd, ProjectDir(projectVariable, cwd));
    EmittedRun(prompt, file, cwd, projectVariable);
    ContextNamesProjectAndWorktrees(project, listed, cwd, ProjectDir(projectVariable, cwd));
  }

  /** The context contains the two directory lines. */
  lemma ContextShowsDirectories(project: string, worktrees: string, cwd: string, root: string)
    ensures Occurs(ContextText(project, worktrees, cwd, root), DirectoryLines(cwd, root))
  {
    var lines := DirectoryLines(cwd, root);
    assert OccursAt(lines, lines, 0);
    OccursAfterPrefix(lines, lines, SlashCommandHelp);
    OccursBeforeSuffix(SlashCommandHelp + lines, lines, Tips);
    OccursAfterPrefix(SlashCommandHelp + lines + Tips, lines, Preamble + ConfigLines(project, worktrees));
  }

  /** An emitted context reports the working directory and, as the project
      root, `CLAUDE_PROJECT_DIR` when it is set and non-empty, and the working
      directory otherwise. */
  lemma ContextShowsProjectRoot(prompt: string, file: ConfigFile, cwd: string, projectVariable: Option<string>)
    requires HasWorktreeKeyword(prompt)
    requires TemplateRenders(file)
    ensures var run := Submit(prompt, file, cwd, projectVariable);
            && |run.printed| == 1
            && (projectVariable.Some? && projectVariable.value != "" ==>
                  Occurs(run.printed[0].additionalContext, DirectoryLines(cwd, projectVariable.value)))
            && (projectVariable.None? || projectVariable.value == "" ==>
                  Occurs(run.printed[0].additionalContext, DirectoryLines(cwd, cwd)))
  {
    var config := Load(file);
    var project := ToText(config["projectName"]).value;
    var listed := Join(ElementTexts(config["worktrees"].items).value, ", ");
    var root := ProjectDir(projectVariable, cwd);
    var text := ContextText(project, listed, cwd, root);
    EmittedRun(prompt, file, cwd, projectVariable);
    ContextShowsDirectories(project, listed, cwd, root);
  }

  /** Four parts joined: each part, with the separator between neighbours. */
  lemma JoinFour(a: string, b: string, c: string, d: string, sep: string)
    ensures Join([a, b, c, d], sep) == a + sep + b + sep + c + sep + d
  {
    assert [a, b, c, d][1..] == [b, c, d];
    assert [b, c, d][1..] == [c, d];
    assert [c, d][1..] == [d];
    assert Join([c, d], sep) == c + sep + d;
    assert Join([b, c, d], sep) == b + sep + (c + sep + d);
  }

  /** An array of strings renders each element as the string itself. */
  lemma StringsRenderAsThemselves(names: seq<string>)
    ensures ElementTexts(seq(|names|, i requires 0 <= i < |names| => JString(names[i]))) == Some(names)
  {
    var items := seq(|names|, i requires 0 <= i < |names| => JString(names[i]));
    assert forall i :: 0 <= i < |items| ==> items[i] == JString(names[i]);
    var texts := ElementTexts(items).value;
    assert forall i :: 0 <= i < |items| ==> ElementText(items[i]) == Some(names[i]);
    assert texts == names;
  }

  /** The default worktrees render as "feature, test, docs, bugfix". */
  lemma DefaultWorktreesText()
    ensures ElementTexts(Defaults()["worktrees"].items).Some?
    ensures Join(ElementTexts(Defaults()["worktrees"].items).value, ", ") == "feature, test, docs, bugfix"
  {
    var names := ["feature", "test", "docs", "bugfix"];
    assert Defaults()["worktrees"].items == seq(|names|, i requires 0 <= i < |names| => JString(names[i]));
    StringsRenderAsThemselves(names);
    JoinFour("feature", "test", "docs", "bugfix", ", ");
  }

  /** With no usable config file, a matching prompt is told about project
      "unknown" and the worktrees "feature, test, docs, bugfix". */
  lemma DefaultContext(prompt: string, file: ConfigFile, cwd: string, projectVariable: Option<string>)
    requires HasWorktreeKeyword(prompt)
    requires !file.Parsed?
    ensures var run := Submit(prompt, file, cwd, projectVariable);
            run.exitCode == 0 && |run.printed| == 1
            && Occurs(run.printed[0].additionalContext,
                      ConfigLines("unknown", "feature, test, docs, bugfix"))
  {
    var config := Load(file);
    assert config == Defaults();
    assert ToText(config["projectName"]) == Some("unknown");
    DefaultWorktreesText();
    assert TemplateRenders(file);
    EmittedContextDescribesConfig(prompt, file, cwd, projectVariable);
  }

}

=== FILE: prompt_keywords.dfy ===
/** The test `user-prompt-submit.js` applies to a submitted prompt: does its
    lower-cased text contain one of twelve fixed worktree keywords? */
module PromptKeywords {

  const Keywords: seq<string> := [
    "worktree", "sync", "monitor", "signal", "workflow",
    "feature", "test", "docs", "bugfix", "claude-complete",
    "tests-complete", "bugfix-complete"
  ]

  /** `toLowerCase` on one character, restricted to ASCII letters. */
  function LowerChar(c: char): char {
    if 'A' <= c <= 'Z' then (c as int + 32) as char else c
  }

  /** `toUpperCase` on one character, restricted to ASCII letters. */
  function UpperChar(c: char): char {
    if 'a' <= c <= 'z' then (c as int - 32) as char else c
  }

  function Lower(s: string): string {
    seq(|s|, i requires 0 <= i < |s| => LowerChar(s[i]))
  }

  function Upper(s: string): string {
    seq(|s|, i requires 0 <= i < |s| => UpperChar(s[i]))
  }

  predicate StartsWith(s: string, prefix: string) {
    |prefix| <= |s| && s[..|prefix|] == prefix
  }

  /** `s.includes(k)`, searching from the front. */
  function Includes(s: string, k: string): bool
    decreases |s|
  {
    StartsWith(s, k) || (0 < |s| && Includes(s[1..], k))
  }

  /** The reference meaning of `includes`: `k` occurs in `s` at position `at`. */
  ghost predicate OccursAt(s: string, k: string, at: int) {
    0 <= at && at + |k| <= |s| && s[at..at + |k|] == k
  }

  ghost predicate Occurs(s: string, k: string) {
    exists at :: OccursAt(s, k, at)
  }

  /** A slice of a string's tail is the same slice of the string, one further on. */
  lemma SliceOfTail(s: string, x: nat, y: nat)
    requires 1 <= |s| && x <= y <= |s| - 1
    ensures s[1..][x..y] == s[x + 1..y + 1]
  {
  }

  /** The search `Includes` answers exactly the question "does `k` occur in `s`". */
  lemma {:induction false} IncludesMeansOccurs(s: string, k: string)
    ensures Includes(s, k) <==> Occurs(s, k)
    decreases |s|
  {
    if StartsWith(s, k) {
      assert OccursAt(s, k, 0);
    } else if |s| == 0 {
    } else {
      IncludesMeansOccurs(s[1..], k);
      if Occurs(s[1..], k) {
        var at :| OccursAt(s[1..], k, at);
        SliceOfTail(s, at, at + |k|);
        assert OccursAt(s, k, at + 1);
      }
      if Occurs(s, k) {
        var at :| OccursAt(s, k, at);
        assert at != 0;
        SliceOfTail(s, at - 1, at - 1 + |k|);
        assert OccursAt(s[1..], k, at - 1);
      }
    }
  }

  /** `keys.some(key => text.includes(key))`. */
  function SomeIncluded(text: string, keys: seq<string>): (r: bool)
    ensures r <==> exists j :: 0 <= j < |keys| && Includes(text, keys[j])
    decreases |keys|
  {
    if |keys| == 0 then false
    else Includes(text, keys[0]) || SomeIncluded(text, keys[1..])
  }

  /** `hasWorktreeKeyword` for the prompt. */
  function HasWorktreeKeyword(prompt: string): bool {
    SomeIncluded(Lower(prompt), Keywords)
  }

  /** A prompt matches exactly when some keyword occurs in its lower-cased text. */
  lemma MatchesIffKeywordOccurs(prompt: string)
    ensures HasWorktreeKeyword(prompt) <==>
              exists j :: 0 <= j < |Keywords| && Occurs(Lower(prompt), Keywords[j])
  {
    forall j | 0 <= j < |Keywords| {
      IncludesMeansOccurs(Lower(prompt), Keywords[j]);
    }
  }

  /** Two prompts that differ only in the case of ASCII letters get the same decision. */
  lemma CaseDoesNotMatter(p: string, q: string)
    requires |p| == |q|
    requires forall i :: 0 <= i < |p| ==> LowerChar(p[i]) == LowerChar(q[i])
    ensures HasWorktreeKeyword(p) == HasWorktreeKeyword(q)
  {
    assert Lower(p) == Lower(q);
  }

  /** Shouting the prompt does not change the decision. */
  lemma UpperCaseSameDecision(p: string)
    ensures HasWorktreeKeyword(Upper(p)) == HasWorktreeKeyword(p)
  {
    forall i | 0 <= i < |p|
      ensures LowerChar(Upper(p)[i]) == LowerChar(p[i])
    {
    }
    CaseDoesNotMatter(Upper(p), p);
  }

  /** Lower-casing works character by character, so it distributes over concatenation. */
  lemma LowerConcat(a: string, b: string)
    ensures Lower(a + b) == Lower(a) + Lower(b)
  {
  }

  /** Whatever occurs in `s` occurs in `s` with text put in front. */
  lemma OccursAfterPrefix(s: string, k: string, a: string)
    requires Occurs(s, k)
    ensures Occurs(a + s, k)
  {
    var at :| OccursAt(s, k, at);
    assert (a + s)[|a| + at..|a| + at + |k|] == s[at..at + |k|];
    assert OccursAt(a + s, k, |a| + at);
  }

  /** Whatever occurs in `s` occurs in `s` with text put after it. */
  lemma OccursBeforeSuffix(s: string, k: string, b: string)
    requires Occurs(s, k)
    ensures Occurs(s + b, k)
  {
    var at :| OccursAt(s, k, at);
    assert (s + b)[at..at + |k|] == s[at..at + |k|];
    assert OccursAt(s + b, k, at);
  }

  /** Whatever occurs in `s` occurs in any text that contains `s`. */
  lemma OccursInContext(s: string, k: string, a: string, b: string)
    requires Occurs(s, k)
    ensures Occurs(a + s + b, k)
  {
    OccursAfterPrefix(s, k, a);
    OccursBeforeSuffix(a + s, k, b);
  }

  /** Matching is monotone: a prompt that contains a matching prompt matches too. */
  lemma {:induction false} MatchIsMonotone(p: string, a: string, b: string)
    requires HasWorktreeKeyword(p)
    ensures HasWorktreeKeyword(a + p + b)
  {
    MatchesIffKeywordOccurs(p);
    var j :| 0 <= j < |Keywords| && Occurs(Lower(p), Keywords[j]);
    LowerConcat(a + p, b);
    LowerConcat(a, p);
    OccursInContext(Lower(p), Keywords[j], Lower(a), Lower(b));
    MatchesIffKeywordOccurs(a + p + b);
  }

  /** An occurrence of an occurrence is an occurrence. */
  lemma OccursTransitive(s: string, k: string, inner: string)
    requires Occurs(s, k) && Occurs(k, inner)
    ensures Occurs(s, inner)
  {
    var at :| OccursAt(s, k, at);
    var at' :| OccursAt(k, inner, at');
    forall x | 0 <= x < |inner|
      ensures s[at + at'..at + at' + |inner|][x] == inner[x]
    {
      assert inner[x] == k[at'..at' + |inner|][x] == k[at' + x];
      assert k[at' + x] == s[at..at + |k|][at' + x] == s[at + at' + x];
    }
    assert OccursAt(s, inner, at + at');
  }

  /** The last two keywords never decide anything: "tests-complete" contains
      "test" and "bugfix-complete" contains "bugfix", so the first ten keywords
      alone give the same decision. */
  lemma TrailingKeywordsRedundant(prompt: string)
    ensures HasWorktreeKeyword(prompt) <==>
              exists j :: 0 <= j < 10 && Occurs(Lower(prompt), Keywords[j])
  {
    MatchesIffKeywordOccurs(prompt);
    var text := Lower(prompt);
    if HasWorktreeKeyword(prompt) {
      var j :| 0 <= j < |Keywords| && Occurs(text, Keywords[j]);
      if j == 10 {
        assert OccursAt(Keywords[10], Keywords[6], 0);
        OccursTransitive(text, Keywords[10], Keywords[6]);
        assert Occurs(text, Keywords[6]);
      } else if j == 11 {
        assert OccursAt(Keywords[11], Keywords[8], 0);
        OccursTransitive(text, Keywords[11], Keywords[8]);
        assert Occurs(text, Keywords[8]);
      }
    }
  }

}

=== FILE: signals.dfy ===
/** The signal catalogue and the scan that finds which marker file to act on. */
module Signals {

  import opened Options
  import opened Effects

  datatype Action = TriggerTests | TriggerDocs | TriggerValidation

  /** A marker file, relative to the worktrees directory, and what it triggers. */
  datatype SignalSpec = SignalSpec(file: Path, action: Action, message: string)

  /** The markers in priority order: when several exist, the earliest wins. */
  const Catalogue: seq<SignalSpec> := [
    SignalSpec(["feature", ".claude-complete"], TriggerTests,
               "Feature work completed, triggering test workflow"),
    SignalSpec(["test", ".tests-complete"], TriggerDocs,
               "Testing completed, triggering documentation workflow"),
    SignalSpec(["bugfix", ".bugfix-complete"], TriggerValidation,
               "Bugfix completed, triggering validation workflow")
  ]

  /** `../{projectName}-worktrees`, the sibling directory holding every worktree. */
  function WorktreesDir(project: string): Path {
    ["..", project + "-worktrees"]
  }

  /** Where the `i`th catalogue marker lives. */
  function Marker(project: string, i: nat): Path
    requires i < |Catalogue|
  {
    WorktreesDir(project) + Catalogue[i].file
  }

  /** The three markers are three different files. */
  lemma MarkersDistinct(project: string, i: nat, j: nat)
    requires i < |Catalogue| && j < |Catalogue| && i != j
    ensures Marker(project, i) != Marker(project, j)
  {
    assert Marker(project, i)[2] == Catalogue[i].file[0];
    assert Marker(project, j)[2] == Catalogue[j].file[0];
  }

  /** The first catalogue entry at or after `i` whose marker exists. */
  function FirstPresentFrom(fs: FileSystem, project: string, i: nat): (r: Option<nat>)
    requires i <= |Catalogue|
    ensures r.Some? ==>
              && i <= r.value < |Catalogue|
              && Marker(project, r.value) in fs
              && forall j :: i <= j < r.value ==> Marker(project, j) !in fs
    ensures r.None? ==> forall j :: i <= j < |Catalogue| ==> Marker(project, j) !in fs
    decreases |Catalogue| - i
  {
    if i == |Catalogue| then None
    else if Marker(project, i) in fs then Some(i)
    else FirstPresentFrom(fs, project, i + 1)
  }

  /** The signal watcher: the highest-priority marker that exists, if any. */
  function FirstPresent(fs: FileSystem, project: string): Option<nat> {
    FirstPresentFrom(fs, project, 0)
  }

}

=== FILE: workflows.dfy ===
/** The three workflow routines of the post-tool-use hook, the events they log,
    and the order in which they run their commands. */
module Workflows {

  import opened Options
  import opened Effects
  import opened Signals

  datatype Workflow = TestWorkflow | DocsWorkflow | ValidationWorkflow

  /** Why a step failed: the `error.message` a log record carries. */
  datatype Failure =
    | CommandFailed(command: Command, termination: Termination)
    | WriteFailed(path: Path)
    | UnlinkFailed(path: Path)

  /** One record of the workflow log, without its timestamp and project name. */
  datatype Event =
    | SignalDetected(signal: Path, action: Action)
    | SignalProcessed(signal: Path)
    | SignalError(signal: Path, error: Failure)
    | WorkflowStarted(workflow: Workflow)
    | WorkflowCompleted(workflow: Workflow)
    | WorkflowFailed(workflow: Workflow, error: Failure)

  /** A routine: pull `branch/{project}` into `worktree`, run `npm test` there if
      `runsTests` and a `package.json` exists, then write `output` into the
      worktree with `content`. */
  datatype Routine = Routine(
    workflow: Workflow,
    worktree: string,
    branch: string,
    runsTests: bool,
    output: string,
    content: string
  )

  const TestRoutine: Routine :=
    Routine(TestWorkflow, "test", "feature", true, ".tests-complete", "")

  const DocsRoutine: Routine :=
    Routine(DocsWorkflow, "docs", "feature", false, ".docs-needed",
            "Documentation update needed for feature changes")

  const ValidationRoutine: Routine :=
    Routine(ValidationWorkflow, "test", "bugfix", true, ".validation-complete", "")

  /** `processSignal`: the routine an action selects. Only the docs routine
      skips the tests and works in the docs worktree; only the validation
      routine pulls the bugfix branch; each routine has its own workflow name. */
  function RoutineFor(a: Action): (r: Routine)
    ensures a == TriggerDocs <==> !r.runsTests
    ensures r.worktree == (if a == TriggerDocs then "docs" else "test")
    ensures r.branch == (if a == TriggerValidation then "bugfix" else "feature")
  {
    match a
    case TriggerTests => TestRoutine
    case TriggerDocs => DocsRoutine
    case TriggerValidation => ValidationRoutine
  }

  /** Each action selects a routine of its own: no two actions share a workflow. */
  lemma RoutineForInjective(a: Action, b: Action)
    requires RoutineFor(a).workflow == RoutineFor(b).workflow
    ensures a == b
  {
  }

  function WorktreePath(project: string, r: Routine): Path {
    WorktreesDir(project) + [r.worktree]
  }

  function OutputPath(project: string, r: Routine): Path {
    WorktreePath(project, r) + [r.output]
  }

  function Pull(project: string, r: Routine): Command {
    Command("git", ["pull", "origin", r.branch + "/" + project], WorktreePath(project, r))
  }

  function NpmTest(project: string, r: Routine): Command {
    Command("npm", ["test"], WorktreePath(project, r))
  }

  /** The commands a routine means to run once its worktree exists: the pull,
      then the tests when the routine runs them and a manifest is present. */
  function Plan(fs: FileSystem, project: string, r: Routine): (cmds: seq<Command>)
    ensures 1 <= |cmds| <= 2 && cmds[0] == Pull(project, r)
    ensures |cmds| == 2 <==> r.runsTests && WorktreePath(project, r) + ["package.json"] in fs
    ensures |cmds| == 2 ==> cmds[1] == NpmTest(project, r)
  {
    [Pull(project, r)]
    + (if r.runsTests && WorktreePath(project, r) + ["package.json"] in fs then [NpmTest(project, r)] else [])
  }

  /** The commands actually started, and the failure that stopped them if any. */
  datatype Attempt = Attempt(ran: seq<Command>, failure: Option<Failure>)

  /** Awaiting each command in turn: the first that fails rejects, and nothing
      after it runs. */
  function RunInOrder(fs: FileSystem, world: World, cmds: seq<Command>): (a: Attempt)
    ensures a.ran <= cmds
    ensures 1 <= |cmds| ==> 1 <= |a.ran|
    ensures a.failure.None? <==> forall i :: 0 <= i < |cmds| ==> Succeeds(fs, world, cmds[i])
    ensures a.failure.None? ==> a.ran == cmds
    ensures a.failure.Some? ==>
              && 1 <= |a.ran|
              && (forall i :: 0 <= i < |a.ran| - 1 ==> Succeeds(fs, world, a.ran[i]))
              && !Succeeds(fs, world, a.ran[|a.ran| - 1])
              && a.failure.value == CommandFailed(a.ran[|a.ran| - 1], Run(fs, world, a.ran[|a.ran| - 1]))
    decreases |cmds|
  {
    if |cmds| == 0 then Attempt([], None)
    else if !Succeeds(fs, world, cmds[0]) then
      Attempt([cmds[0]], Some(CommandFailed(cmds[0], Run(fs, world, cmds[0]))))
    else
      var rest := RunInOrder(fs, world, cmds[1..]);
      assert forall i :: 1 <= i < |cmds| ==> cmds[i] == cmds[1..][i - 1];
      Attempt([cmds[0]] + rest.ran, rest.failure)
  }

  /** What a routine leaves behind: the filesystem, the events it logged, and the
      commands it started. */
  datatype RoutineRun = RoutineRun(fs: FileSystem, events: seq<Event>, commands: seq<Command>) {
    predicate Completed() {
      |events| == 2 && events[1].WorkflowCompleted?
    }
  }

  /** One routine, with its own failures caught: a failing command or write is
      logged as `workflow_failed` and never reaches the caller. */
  function RunRoutine(r: Routine, fs: FileSystem, world: World, project: string): (run: RoutineRun)
    ensures 1 <= |run.events| <= 2 && run.events[0] == WorkflowStarted(r.workflow)
    ensures |run.events| == 2 ==>
              run.events[1] == WorkflowCompleted(r.workflow)
              || (run.events[1].WorkflowFailed? && run.events[1].workflow == r.workflow)
    ensures WorktreePath(project, r) !in fs ==> run == RoutineRun(fs, [WorkflowStarted(r.workflow)], [])
    ensures WorktreePath(project, r) in fs ==>
              |run.events| == 2 && 1 <= |run.commands| && run.commands <= Plan(fs, project, r)
    ensures run.Completed() <==>
              && WorktreePath(project, r) in fs
              && (forall i :: 0 <= i < |Plan(fs, project, r)| ==> Succeeds(fs, world, Plan(fs, project, r)[i]))
              && CanWrite(fs, world, OutputPath(project, r))
    ensures run.Completed() ==>
              run.fs == fs[OutputPath(project, r) := File(r.content)] && run.commands == Plan(fs, project, r)
    ensures !run.Completed() ==> run.fs == fs
  {
    var started := [WorkflowStarted(r.workflow)];
    if WorktreePath(project, r) !in fs then RoutineRun(fs, started, [])
    else
      var attempt := RunInOrder(fs, world, Plan(fs, project, r));
      if attempt.failure.Some? then
        RoutineRun(fs, started + [WorkflowFailed(r.workflow, attempt.failure.value)], attempt.ran)
      else if CanWrite(fs, world, OutputPath(project, r)) then
        RoutineRun(fs[OutputPath(project, r) := File(r.content)],
                   started + [WorkflowCompleted(r.workflow)], attempt.ran)
      else
        RoutineRun(fs, started + [WorkflowFailed(r.workflow, WriteFailed(OutputPath(project, r)))], attempt.ran)
  }

  /** The test routine pulls `feature/{project}` first, runs `npm test` only after
      a successful pull and only when `package.json` exists, and writes
      `.tests-complete` only when every command it ran succeeded. */
  lemma TestRoutineCommands(fs: FileSystem, world: World, project: string)
    requires WorktreePath(project, TestRoutine) in fs
    ensures var run := RunRoutine(TestRoutine, fs, world, project);
            var wt := WorktreesDir(project) + ["test"];
            && run.commands[0] == Command("git", ["pull", "origin", "feature/" + project], wt)
            && (|run.commands| == 2 <==>
                  Succeeds(fs, world, run.commands[0]) && wt + ["package.json"] in fs)
            && (|run.commands| == 2 ==> run.commands[1] == Command("npm", ["test"], wt))
            && (run.Completed() ==> forall c :: c in run.commands ==> Succeeds(fs, world, c))
            && (!run.Completed() ==> run.fs == fs && run.events[1].WorkflowFailed?)
  {
    var run := RunRoutine(TestRoutine, fs, world, project);
    assert "feature" + "/" + project == "feature/" + project;
    var plan := Plan(fs, project, TestRoutine);
    var attempt := RunInOrder(fs, world, plan);
    assert run.commands == attempt.ran;
    if |plan| == 2 && Succeeds(fs, world, plan[0]) {
      assert attempt.ran == [plan[0]] + RunInOrder(fs, world, plan[1..]).ran;
    }
  }

  /** The docs routine writes exactly one file, `docs/.docs-needed` with its fixed
      note, and only when it completes. */
  lemma DocsRoutineWritesOnlyItsNote(fs: FileSystem, world: World, project: string)
    ensures var run := RunRoutine(DocsRoutine, fs, world, project);
            var note := WorktreesDir(project) + ["docs", ".docs-needed"];
            && (run.Completed() ==>
                  run.fs == fs[note := File("Documentation update needed for feature changes")])
            && (!run.Completed() ==> run.fs == fs)
            && forall c :: c in run.commands ==>
                 c == Command("git", ["pull", "origin", "feature/" + project], WorktreesDir(project) + ["docs"])
  {
    var run := RunRoutine(DocsRoutine, fs, world, project);
    assert "feature" + "/" + project == "feature/" + project;
    assert WorktreesDir(project) + ["docs", ".docs-needed"] == OutputPath(project, DocsRoutine);
    assert |Plan(fs, project, DocsRoutine)| == 1;
  }

  /** The validation routine pulls `bugfix/{project}` into the test worktree and
      writes nothing but `test/.validation-complete`, which is not a catalogue marker. */
  lemma ValidationRoutineWritesOnlyItsMarker(fs: FileSystem, world: World, project: string)
    ensures var run := RunRoutine(ValidationRoutine, fs, world, project);
            var marker := WorktreesDir(project) + ["test", ".validation-complete"];
            && (run.Completed() ==> run.fs == fs[marker := File("")])
            && (!run.Completed() ==> run.fs == fs)
            && (1 <= |run.commands| ==>
                  run.commands[0] == Command("git", ["pull", "origin", "bugfix/" + project],
                                             WorktreesDir(project) + ["test"]))
            && forall i :: 0 <= i < |Catalogue| ==> marker != Marker(project, i)
  {
    var marker := WorktreesDir(project) + ["test", ".validation-complete"];
    assert "bugfix" + "/" + project == "bugfix/" + project;
    assert marker == OutputPath(project, ValidationRoutine);
    forall i | 0 <= i < |Catalogue|
      ensures marker != Marker(project, i)
    {
      assert marker[3] != Marker(project, i)[3];
    }
  }

  /** The test routine's output is the second catalogue marker, so a completed
      test run is itself the signal for the docs workflow. */
  lemma TestOutputIsDocsSignal(project: string)
    ensures OutputPath(project, TestRoutine) == Marker(project, 1)
    ensures Catalogue[1].action == TriggerDocs
  {
  }

}

=== FILE: worktree_config.dfy ===
/** The configuration every worktree hook loads at start-up: a default record,
    shallowly overridden by whatever `.claude/worktree-config.json` parses to. */
module WorktreeConfig {

  import opened Options
  import opened JsValues

  /** A configuration object, keyed by property name. Values are not type-checked:
      a key from the file keeps whatever JSON value the file gave it. */
  type Config = map<string, Json>

  /** What reading `.claude/worktree-config.json` produced. */
  datatype ConfigFile =
    | Absent              // `existsSync` found no file
    | Unreadable          // reading it or `JSON.parse` threw
    | Parsed(value: Json)

  function Defaults(): Config {
    map[
      "projectName" := JString("unknown"),
      "worktrees" := JArray([JString("feature"), JString("test"), JString("docs"), JString("bugfix")]),
      "autoSync" := JBool(true),
      "monitoring" := JBool(false)
    ]
  }

  /** The own enumerable properties of an array or string: one per index, keyed
      by the index's numeral. */
  function Indexed(items: seq<Json>): (m: map<string, Json>)
    ensures forall i :: 0 <= i < |items| ==> Decimal(i) in m && m[Decimal(i)] == items[i]
    decreases |items|
  {
    if |items| == 0 then map[]
    else
      var last := |items| - 1;
      assert forall i :: 0 <= i < last ==> items[..last][i] == items[i];
      assert forall i :: 0 <= i < last ==> Decimal(i) != Decimal(last) by {
        forall i | 0 <= i < last {
          DecimalInjective(i, last);
        }
      }
      Indexed(items[..last])[Decimal(last) := items[last]]
  }

  /** `Indexed` has no keys besides the numerals of the indices. */
  lemma {:induction false} IndexedKeys(items: seq<Json>, k: string)
    requires k in Indexed(items)
    ensures exists i :: 0 <= i < |items| && k == Decimal(i)
    decreases |items|
  {
    var last := |items| - 1;
    if k != Decimal(last) {
      IndexedKeys(items[..last], k);
    }
  }

  /** The properties object spread `{...v}` copies out of a parsed value: an
      object's fields, an array's or a string's indexed elements, and nothing
      for null, booleans and numbers. */
  function OwnEntries(v: Json): map<string, Json> {
    match v
    case JObject(fields) => fields
    case JArray(items) => Indexed(items)
    case JString(s) => Indexed(seq(|s|, i requires 0 <= i < |s| => JString([s[i]])))
    case _ => map[]
  }

  /** `{ ...config, ...JSON.parse(configData) }` when the file parsed, and the
      defaults untouched when it is absent or could not be read or parsed. */
  function Load(file: ConfigFile): (c: Config)
    ensures c.Keys == Defaults().Keys + (if file.Parsed? then OwnEntries(file.value).Keys else {})
    ensures file.Parsed? ==>
              forall k :: k in OwnEntries(file.value) ==> c[k] == OwnEntries(file.value)[k]
    ensures forall k :: k in Defaults() && !(file.Parsed? && k in OwnEntries(file.value)) ==>
              c[k] == Defaults()[k]
    ensures !file.Parsed? ==> c == Defaults()
  {
    match file
    case Parsed(v) => Defaults() + OwnEntries(v)
    case _ => Defaults()
  }

  /** The project name as the hooks substitute it into paths, branch names and
      text, or `None` when converting `config.projectName` throws. */
  function ProjectName(c: Config): (r: Option<string>)
    requires "projectName" in c
    ensures r.Some? <==> Printable(c["projectName"])
  {
    ToText(c["projectName"])
  }

  /** `config.projectName` of the loaded configuration, as text. */
  function ConfiguredProject(file: ConfigFile): Option<string> {
    LoadHasDefaultKeys(file);
    ProjectName(Load(file))
  }

  /** No default key is a numeral: each contains a letter. */
  lemma DefaultKeysAreNotIndices(k: string)
    requires k in Defaults()
    ensures !AllDigits(k)
  {
    assert !IsDigit(k[0]);
  }

  /** A file that parses to anything but an object (a string, an array, a number,
      a boolean or null) may add index keys but never changes a default. */
  lemma {:induction false} NonObjectKeepsDefaults(v: Json, k: string)
    requires !v.JObject?
    requires k in Defaults()
    ensures Load(Parsed(v))[k] == Defaults()[k]
  {
    DefaultKeysAreNotIndices(k);
    if k in OwnEntries(v) {
      match v
      case JArray(items) =>
        IndexedKeys(items, k);
      case JString(s) =>
        IndexedKeys(seq(|s|, i requires 0 <= i < |s| => JString([s[i]])), k);
    }
  }

  /** Every hook can rely on the four default keys being present after loading. */
  lemma LoadHasDefaultKeys(file: ConfigFile)
    ensures "projectName" in Load(file) && "worktrees" in Load(file)
    ensures "autoSync" in Load(file) && "monitoring" in Load(file)
  {
  }

}
